=== FILE: README.md ===
# Bluetooth speaker spectrum visualizer — Dafny model

This project models the per-frame "spectrum to bars" logic of an ESP32 Bluetooth
speaker (`main.cpp`), together with the small discrete state around it.

Each frame, the device aggregates the 64 FFT magnitudes into 64 bands using the static
`binEdges` table. It multiplies each band average by a volume-dependent gain,
zeroes bands below a per-band noise floor, applies a frequency boost, and clamps
to `MAX_BAR_HEIGHT`. The result is folded into the persistent
`smoothedMagnitudes` array by an exponential filter with factor 0.90. One
coloured one-pixel bar per band is then drawn at column `2i`, standing on the
bottom of the 128x160 screen.

Around this pipeline sit:
- the cached AVRCP playback status, which suppresses the visualizer while
  paused or stopped;
- the AVRCP metadata callback, which fills title, artist and album;
- the A2DP connection callback;
- the main loop's gate, which shows the interface when the sink is connected
  and has metadata, and otherwise darkens the screen and clears it once.

Modules, leaf first:
- `Config` (config.dfy): the constants, the edge table and `uint8_t`
  conversion. config.dfy also holds the `Wrappers` module with `Option`.
- `Bands` (bands.dfy): bin sums, band averages with volume gain, the noise gate,
  the boost and the clamp.
- `Smoothing` (smoothing.dfy): the exponential filter.
- `Render` (render.dfy): C truncation, C division, Arduino `map`, colour
  channels and bar geometry.
- `Visualizer` (visualizer.dfy): one call of `displayVisualizer`, as a function
  and as an in-place loop over the bands, with band 63's read bounded by the
  buffer; and the frame exactly as written, for any value of the
  out-of-bounds read.
- `Device` (device.dfy): callbacks, the loop gate, and traces of
  callbacks and frames.

Modelling choices:
- `float` is modelled as `real`.
- The transform's output is an input sequence of 64 reals.
- `pow(25, -v/115)` and `pow(1 + 500i/63, 3.5)` are the fields of a `Maths`
  record of arbitrary positive-real functions. Nothing is assumed about them
  beyond positivity.
- Drawing is a returned list of `Rect` records.
- Callbacks are events applied sequentially between frames.
- The sink's `is_connected()` query and `get_volume()` are per-frame inputs.

Facts of the code the model keeps as they are:
- The edge table runs 1..65, so bands 32-62 (bins 33-63) read the mirror half
  of the 64-point transform, and band 63 starts at bin 64, past the buffer.
- The loop gates on `a2dp_sink.is_connected()`, not on the `btConnected` flag
  that the connection callback maintains.
- The frame pipeline (`Visualize`, `DisplayVisualizer`, `LoopStep`, `Run`)
  stops band 63's read at the end of the buffer, so band 63 is given average 0
  (see "## Findings"). `VisualizeAsWritten` is the frame as written, with the
  value read at `vReal[64]` as an extra input.

## Model

| member | source | states |
|---|---|---|
| `Bands.SumBins` | main.cpp:430-431 | A bin sum is defined only when every bin the read loop visits lies inside the buffer. |
| `Bands.EdgeTable` | main.cpp:47-55 | The edge table has 65 entries, 1 through 65. It is strictly increasing and starts past the DC bin 0. |
| `Bands.BandWidth` | main.cpp:435 | The divisor of every band's average is exactly 1, so it is never zero. |
| `Bands.SumBinsDefinedIff` | main.cpp:430-432 | A band's bin sum is defined exactly when its range is empty or every index the read loop visits lies inside the magnitude buffer. |
| `Bands.SumBinsNonNegative` | main.cpp:427-432 | Summing non-negative magnitudes gives a non-negative sum. |
| `Bands.AsWrittenBandSum` | main.cpp:430-431 | As written, a band's read loop stays inside the 64-entry buffer exactly for bands 0-62. Band 63 reads past the end. |
| `Bands.LastBandReadsPastBuffer` | main.cpp:54 | Band 63 starts at edge 64 == SAMPLES, so for every spectrum its sum as written is undefined. |
| `Bands.BandSum` | main.cpp:427-432 | With the read loop stopped at the buffer's end, every read is in bounds. The sum equals the as-written sum wherever that is defined, i.e. `spectrum[i+1]`. Band 63 sums to 0. |
| `Bands.AsWrittenBandAverage` | main.cpp:430-435 | With the memory past the buffer holding `stray`, the as-written average equals the bounded one for bands 0-62. For band 63 it is `stray * 10 * pow(...)`. |
| `Bands.BandAverage` | main.cpp:435 | The gained average is `spectrum[i+1] * 10 * pow(...)` for bands 0-62 and 0 for band 63. It is non-negative when the magnitudes are. |
| `Bands.NoiseThreshold` | main.cpp:436 | The noise floor `750 / (1 + 0.15 i)` is positive and at most 750. |
| `Bands.ThresholdNonIncreasing` | main.cpp:436 | A higher band never has a higher noise floor. |
| `Bands.Constrain` | main.cpp:445 | `constrain` returns a value within the bounds. It returns the input unchanged when it is already within them, the lower bound below them, and the upper bound above them. |
| `Bands.ScaledBand` | main.cpp:439-445 | The scaled value is in [0, MAX_BAR_HEIGHT]. It is 0 when the gained average is below the band's noise floor, and positive exactly when the average reaches the floor. When the gate passes it is `50 * boost * avg` if that is at most MAX_BAR_HEIGHT, and exactly MAX_BAR_HEIGHT (80) if it is larger. |
| `Smoothing.Smooth` | main.cpp:448 | The filtered value lies between the previous value and the new scaled value, so [0, MAX_BAR_HEIGHT] is preserved. |
| `Smoothing.DecayClosedForm` | main.cpp:448 | After k frames of zero input the value is 0.9^k times its start value. |
| `Smoothing.DecayNonIncreasing` | main.cpp:448 | Under zero input a non-negative value never rises and never goes negative. |
| `Render.TruncToInt` | main.cpp:449 | `(int)` truncates toward zero. For a non-negative value the result is its integer part. |
| `Render.CDiv` | main.cpp:452 | C division leaves a remainder smaller than the divisor with the dividend's sign. |
| `Render.ArduinoMap` | main.cpp:452 | `map` sends the low end of the input range to the low end of the output range, and the high end to the high end. |
| `Render.ChannelLevels` | main.cpp:452 | For heights 0-80, green is `floor(5d/2)` in [0,200] and blue is `180 - floor(9d/4)` in [0,180]. Blue uses truncating division of a negative product. Both fit in `uint8_t`. |
| `Render.ChannelsMonotone` | main.cpp:452 | Taller bars are never less green and never more blue. |
| `Config.ToByte` | main.cpp:452 | The `uint8_t` conversion is the identity on 0-255 and otherwise reduces modulo 256. |
| `Render.BarFor` | main.cpp:449-456 | Band i's rectangle is one pixel wide at x = 2i, and its bottom edge is the screen's bottom edge. |
| `Render.BarOnScreen` | main.cpp:449-456 | For an in-range smoothed value, the bar lies on the 128x160 screen. Its height is the value's integer part, in [0,80], with y in [80,160]. Its colour is (255, floor(5h/2), 180 - floor(9h/4)). |
| `Visualizer.Suppressed` | main.cpp:414 | The visualizer is suppressed exactly when the status is neither PLAYING, a seek, nor ERROR, i.e. when it is PAUSED or STOPPED. |
| `Visualizer.BandHeight` | main.cpp:435-445 | A band's pre-smoothing height is in range, and it is 0 exactly when its gained average is under its noise floor. |
| `Visualizer.Visualize` | main.cpp:413-458 | With band 63's read bounded by the buffer: while paused or stopped, nothing changes and no bar is drawn. Otherwise every band moves toward its new height and in-range arrays stay in range. A band under its floor never rises, and one bar per band is drawn from the new value. |
| `Visualizer.UpdateBand` | main.cpp:427-448 | The band loop body, with its inner read loop stopped at the buffer's end, computes the filtered value of the functional model. |
| `Visualizer.DisplayVisualizer` | main.cpp:413-458 | The loop over bands, updating in place with band 63's read bounded, produces exactly the frame `Visualize` describes. |
| `Visualizer.FrameBarsOnScreen` | main.cpp:449-456 | Every bar of a frame drawn from an in-range array lies on the screen. |
| `Visualizer.AsWrittenBandHeight` | main.cpp:426-445 | The as-written pre-smoothing height is in range whatever `vReal[64]` holds. It equals the bounded height on bands 0-62, and is 0 exactly when its average is under the noise floor. |
| `Visualizer.VisualizeAsWritten` | main.cpp:413-458 | The frame as written, for any value read at `vReal[64]`: suppressed while paused or stopped, equal to the bounded frame on bands 0-62, and it keeps an in-range array in range with every bar on the screen. |
| `Device.Init` | main.cpp:56-81 | At power-on the array is all zeros and in range. The status is STOPPED (the zero-initialised enum), so the visualizer is suppressed. No metadata is present and both flags are false. |
| `Device.OnMetadata` | main.cpp:91-104 | Ids 0x01/0x02/0x04 replace only the title, the artist or the album. Any other id changes nothing, and no other state changes. |
| `Device.MetadataReceived` | main.cpp:471-476 | Metadata is present exactly when title, artist and album are not all empty. |
| `Device.MetadataPresence` | main.cpp:471-476 | Non-empty text under a known id makes metadata present. Metadata is lost only when an empty string replaces a field. Unknown ids leave presence unchanged. |
| `Device.OnPlayStatus` | main.cpp:108-135 | The status callback caches the reported status and changes nothing else. |
| `Device.OnConnection` | main.cpp:139-149 | A CONNECTED event sets `btConnected` and re-arms the clear. Other state events only drop `btConnected`, and non-state events change nothing. |
| `Device.Apply` | main.cpp:91-149 | No callback touches the smoothing array. Only a new connection can reset `screenCleared`. |
| `Device.LoopStep` | main.cpp:547-559 | When connected with metadata, the loop re-arms the clear and runs the visualizer. While paused or stopped that draws nothing and leaves the array alone. Otherwise the screen goes dark, the array is kept, and the screen is cleared only if it was not already cleared. |
| `Device.Run` | main.cpp:527-559 | Running any trace of callbacks and frames keeps a full 64-band smoothing array. |
| `Device.RunKeepsInvariant` | main.cpp:426-458 | Across any trace, in-range smoothed values stay in range and every bar drawn lies on the screen. |
| `Device.SmoothedAlwaysInRange` | main.cpp:56 | Starting from power-on, every smoothed band stays in [0, MAX_BAR_HEIGHT] after any number of frames. |
| `Device.ClearAtMostOncePerIdleStretch` | main.cpp:555-558 | In a stretch where every loop pass is dark and no new connection arrives, the screen is cleared exactly once if it was not already cleared and the stretch has a loop pass; otherwise it is not cleared at all. |

## Left out

- Sample acquisition (`analogRead` with the `micros()`/`yield()` deadline loop): wall-clock I/O.
- The Hamming window, FFT and magnitude calls of the FFT library: the library is not part of this model. Its output is an input sequence of 64 reals.
- The values of `pow(25, -v/115)` and `pow(1 + 500i/63, 3.5)`: they are transcendental. They are arbitrary positive reals here. So no monotonicity of gain in volume or of boost in band index is stated, and neither is a gain ratio between volume 0 and 127.
- IEEE `float` rounding: reals are exact here. For example, `1.0f - 0.90f` is taken as exactly 0.1.
- `Visualizer.Visualize`: band 63 uses the bounded read, so `Visualize`, `DisplayVisualizer`, `UpdateBand`, `Device.LoopStep`, `Device.Run` and the trace lemmas model the corrected program. The frame as written is `VisualizeAsWritten`, for any value of the out-of-bounds read; traces are not run with it.
- `Render.TruncToInt`: does not model the undefined behaviour of `(int)` on a float outside the `int` range. Only values in [0, 80] reach it on the modelled paths.
- `color565` packing, `fillRect`, `pushSprite`, `fillScreen` and every other display primitive: drawing is returned as `Rect` records and `Dark(clearScreen)` outputs.
- The gradient background, stars, wave border, glow text, metadata scrolling, volume indicator and `displayMetadata`: these are display plumbing driven by `millis()`, trigonometry and font metrics.
- `setup`, the I2S/Bluetooth configuration and the backlight pin: device bring-up.
- `setup` does not register `bt_connection_callback`, so in the program as written its events never arrive. It is modelled anyway as an event, and `btConnected` is kept in the state, although the loop never reads it.
- The metadata callback's C-string conversion (text up to the first NUL): the text arrives as an already-decoded `string`.
- Asynchronous interleaving of callbacks with the loop: callbacks are sequential events between frames.
- The range [0,127] of the sink's volume: the volume reaches the model only through the abstract `volumeCurve`, so its range is not constrained.

## Findings

| source | as written | input that shows it | evidently intended | confidence | as-written member | corrected member |
|---|---|---|---|---|---|---|
| main.cpp:430-431 | Band 63 loops `j` from `binEdges[63] = 64` to `binEdges[64] = 65` and reads `vReal[64]` of the 64-entry `vReal` array (main.cpp:22). | Any frame rendered while playing: `i = 63`, `j = 64`, with `SAMPLES = 64` (proved for every spectrum by `Bands.LastBandReadsPastBuffer`). | Every band reads only bins inside the magnitude buffer. `vReal` has 64 entries (main.cpp:22), so no bin 64 exists to read. Here the read loop stops at `SAMPLES`, so band 63 sums no bins and averages 0. | high (not executed) | `Bands.AsWrittenBandSum` | `Bands.BandSum` |

=== FILE: bands.dfy ===
/** Aggregation of spectrum bins into bands, with volume gain, noise gate,
    frequency boost and clamping (main.cpp:426-445). */
module Bands {
  import opened Config
  import opened Wrappers

  /** The sum buf[lo] + ... + buf[hi-1], accumulated in increasing index order
      as the band loop does; None as soon as one of those reads falls outside
      buf, since such a read has no defined value. */
  function SumBins(buf: seq<real>, lo: int, hi: int): (r: Option<real>)
    ensures r.Some? && lo < hi ==> 0 <= lo && hi <= |buf|
    decreases hi - lo
  {
    if hi <= lo then Some(0.0)
    else
      match SumBins(buf, lo, hi - 1)
      case None => None
      case Some(s) => if 0 <= hi - 1 < |buf| then Some(s + buf[hi - 1]) else None
  }

  /** A bin sum is defined exactly when its range is empty or lies inside the buffer. */
  lemma {:induction false} SumBinsDefinedIff(buf: seq<real>, lo: int, hi: int)
    ensures SumBins(buf, lo, hi).Some? <==> (hi <= lo || (0 <= lo && hi <= |buf|))
    decreases hi - lo
  {
    if lo < hi {
      SumBinsDefinedIff(buf, lo, hi - 1);
    }
  }

  /** Sums of non-negative magnitudes are non-negative. */
  lemma {:induction false} SumBinsNonNegative(buf: seq<real>, lo: int, hi: int)
    requires forall k :: 0 <= k < |buf| ==> 0.0 <= buf[k]
    requires SumBins(buf, lo, hi).Some?
    ensures 0.0 <= SumBins(buf, lo, hi).value
    decreases hi - lo
  {
    if lo < hi {
      SumBinsNonNegative(buf, lo, hi - 1);
    }
  }

  /** The edge table is 1, 2, ..., 65: it starts past the DC bin and is strictly
      increasing, so every band is exactly one bin wide. */
  lemma EdgeTable()
    ensures |BinEdges()| == NUM_BARS + 1
    ensures forall i :: 0 <= i <= NUM_BARS ==> BinEdges()[i] == i + 1
    ensures forall i, j :: 0 <= i < j <= NUM_BARS ==> BinEdges()[i] < BinEdges()[j]
  {
  }

  /** The divisor of band i's average. */
  function BandWidth(i: int): (w: int)
    requires 0 <= i < NUM_BARS
    ensures w == 1
    ensures BinEdges()[i] < BinEdges()[i + 1]
  {
    EdgeTable();
    BinEdges()[i + 1] - BinEdges()[i]
  }

  /** Band i's sum as the source's read loop runs it over the edge table:
      defined for every band but the last, whose loop reads one bin past the
      end of the 64-entry magnitude buffer. */
  function AsWrittenBandSum(buf: seq<real>, i: int): (r: Option<real>)
    requires |buf| == SAMPLES
    requires 0 <= i < NUM_BARS
    ensures r.Some? <==> i < NUM_BARS - 1
  {
    EdgeTable();
    SumBinsDefinedIff(buf, BinEdges()[i], BinEdges()[i + 1]);
    SumBins(buf, BinEdges()[i], BinEdges()[i + 1])
  }

  /** Counterexample: band 63 starts at edge 64 == SAMPLES, so its first read
      is past the end of the buffer and its sum is undefined. */
  lemma LastBandReadsPastBuffer(buf: seq<real>)
    requires |buf| == SAMPLES
    ensures BinEdges()[NUM_BARS - 1] == SAMPLES
    ensures AsWrittenBandSum(buf, NUM_BARS - 1) == None
  {
  }

  /** Upper bound of band i's read loop once it stops at the end of the buffer. */
  function BandEnd(i: int): (e: int)
    requires 0 <= i < NUM_BARS
    ensures e <= SAMPLES
  {
    Min(BinEdges()[i + 1], SAMPLES)
  }

  /** Band i's bin sum with the read loop bounded by the buffer: every read is
      inside the buffer, the result agrees with the source wherever the
      source's reads are in bounds, and the last band sums no bins. */
  function BandSum(buf: seq<real>, i: int): (r: real)
    requires |buf| == SAMPLES
    requires 0 <= i < NUM_BARS
    ensures SumBins(buf, BinEdges()[i], BandEnd(i)) == Some(r)
    ensures i < NUM_BARS - 1 ==> AsWrittenBandSum(buf, i) == Some(r)
    ensures i < NUM_BARS - 1 ==> r == buf[i + 1]
    ensures i == NUM_BARS - 1 ==> r == 0.0
  {
    EdgeTable();
    SumBinsDefinedIff(buf, BinEdges()[i], BandEnd(i));
    SumBins(buf, BinEdges()[i], BandEnd(i)).value
  }

  /** Band i's average times the volume gain 10 * pow(25, -volume/115);
      `volumeFactor` stands for the pow(...) value. */
  function BandAverage(buf: seq<real>, i: int, volumeFactor: PosReal): (avg: real)
    requires |buf| == SAMPLES
    requires 0 <= i < NUM_BARS
    ensures i < NUM_BARS - 1 ==> avg == buf[i + 1] * 10.0 * volumeFactor
    ensures i == NUM_BARS - 1 ==> avg == 0.0
    ensures (forall k :: 0 <= k < |buf| ==> 0.0 <= buf[k]) ==> 0.0 <= avg
  {
    BandSum(buf, i) / (BandWidth(i) as real) * 10.0 * volumeFactor
  }

  /** Band i's gained average as the source computes it, with its read loop
      over the edge table unchanged, when the one read past the end of the
      64-entry buffer yields `stray` (whatever lies after the buffer). It
      agrees with the bounded average on bands 0-62; band 63 averages `stray`. */
  function AsWrittenBandAverage(buf: seq<real>, stray: real, i: int, volumeFactor: PosReal): (avg: real)
    requires |buf| == SAMPLES
    requires 0 <= i < NUM_BARS
    ensures i < NUM_BARS - 1 ==> avg == BandAverage(buf, i, volumeFactor)
    ensures i == NUM_BARS - 1 ==> avg == stray * 10.0 * volumeFactor
  {
    var memory := buf + [stray];
    EdgeTable();
    SumBinsDefinedIff(memory, BinEdges()[i], BinEdges()[i + 1]);
    SumBins(memory, BinEdges()[i], BinEdges()[i + 1]).value / (BandWidth(i) as real) * 10.0 * volumeFactor
  }

  /** The per-band noise floor BASE_THRESHOLD / (1 + THRESHOLD_DECAY * i). */
  function NoiseThreshold(i: nat): (t: real)
    ensures 0.0 < t <= BASE_THRESHOLD
  {
    BASE_THRESHOLD / (1.0 + THRESHOLD_DECAY * i as real)
  }

  /** Higher bands have a lower (or equal) noise floor. */
  lemma ThresholdNonIncreasing(i: nat, j: nat)
    requires i <= j
    ensures NoiseThreshold(j) <= NoiseThreshold(i)
  {
    var a := 1.0 + THRESHOLD_DECAY * i as real;
    var b := 1.0 + THRESHOLD_DECAY * j as real;
    var ta := BASE_THRESHOLD / a;
    var tb := BASE_THRESHOLD / b;
    assert 0.0 < a <= b && 0.0 < ta;
    assert tb * b == ta * a;
    assert ta * a <= ta * b;
    assert tb * b <= ta * b;
  }

  /** Arduino `constrain(x, lo, hi)`. */
  function Constrain(x: real, lo: real, hi: real): (r: real)
    ensures lo <= hi ==> lo <= r <= hi
    ensures lo <= x <= hi ==> r == x
    ensures x < lo ==> r == lo
    ensures lo <= hi <= x ==> r == hi
  {
    if x < lo then lo else if x > hi then hi else x
  }

  /** Band i's bar height before smoothing: zero when the gained average is
      under the band's noise floor, otherwise the boosted average clamped to
      [0, MAX_BAR_HEIGHT]; `boost` stands for pow(1 + 500*i/63, 3.5). */
  function ScaledBand(avg: real, boost: PosReal, i: nat): (s: real)
    ensures 0.0 <= s <= MAX_BAR_HEIGHT as real
    ensures avg < NoiseThreshold(i) ==> s == 0.0
    ensures 0.0 < s <==> NoiseThreshold(i) <= avg
    ensures NoiseThreshold(i) <= avg && 50.0 * boost * avg <= MAX_BAR_HEIGHT as real ==> s == 50.0 * boost * avg
    ensures NoiseThreshold(i) <= avg && MAX_BAR_HEIGHT as real <= 50.0 * boost * avg ==> s == MAX_BAR_HEIGHT as real
  {
    var gated := if avg < NoiseThreshold(i) then 0.0 else avg;
    Constrain(50.0 * boost * gated, 0.0, MAX_BAR_HEIGHT as real)
  }
}

=== FILE: config.dfy ===
/** Compile-time configuration of the spectrum visualizer (main.cpp:13-18, 46-55, 422-423). */
module Config {

  /** Number of samples per frame; also the length of the magnitude buffer. */
  const SAMPLES: int := 64
  const SCREEN_HEIGHT: int := 160
  const SCREEN_WIDTH: int := 128
  const MAX_BAR_HEIGHT: int := 80
  /** Weight of the previous smoothed value in the exponential filter. */
  const SMOOTHING_FACTOR: real := 0.90
  const NUM_BARS: int := 64
  const BASE_THRESHOLD: real := 750.0
  const THRESHOLD_DECAY: real := 0.15
  const BAR_WIDTH: int := 1

  /** Bin-index boundaries: band i aggregates bins [BinEdges[i], BinEdges[i+1]).
      The table reads 1, 2, 3, ..., 64, 65. */
  function BinEdges(): seq<int>
  {
    seq(NUM_BARS + 1, EdgeAt)
  }

  /** Entry k of the edge table. */
  function EdgeAt(k: int): int
  {
    k + 1
  }

  /** A C `uint8_t` value. */
  type Byte = x: int | 0 <= x < 256

  /** A strictly positive real; the range of the abstracted `pow` calls. */
  type PosReal = r: real | r > 0.0 witness 1.0

  /** Conversion of an integer to `uint8_t`: reduction modulo 2^8. */
  function ToByte(n: int): (b: Byte)
    ensures 0 <= n < 256 ==> b == n
    ensures (b - n) % 256 == 0
  {
    n % 256
  }

  function Min(a: int, b: int): (m: int)
    ensures m <= a && m <= b && (m == a || m == b)
  {
    if a <= b then a else b
  }
}

/** The optional-value wrapper used for reads that may fall outside a buffer. */
module Wrappers {
  datatype Option<+T> = None | Some(value: T)
}

=== FILE: device.dfy ===
/** The discrete state around the visualizer: the cached playback status and
    metadata written by the sink's callbacks, the connection flags, and the
    per-frame display/clear gate of the main loop (main.cpp:56-81, 91-149,
    471-476, 547-559). Callbacks are applied as sequential events between
    frames. */
module Device {
  import opened Config
  import opened Smoothing
  import opened Render
  import opened Visualizer

  /** AVRCP metadata attribute ids the callback dispatches on. */
  const TITLE_ID: Byte := 0x01
  const ARTIST_ID: Byte := 0x02
  const ALBUM_ID: Byte := 0x04

  /** The connection states an A2DP connection-state event carries. */
  datatype ConnectionState = Disconnected | Connecting | Connected | Disconnecting

  /** Events delivered to the A2DP connection callback. */
  datatype A2dpEvent =
    | ConnectionStateChanged(state: ConnectionState)
    | OtherA2dpEvent

  /** Everything the core keeps between frames. */
  datatype State = State(
    status: PlaybackStatus,
    title: string,
    artist: string,
    album: string,
    btConnected: bool,
    screenCleared: bool,
    smoothed: seq<real>)

  /** The state invariant: a full smoothing array with every band in range. */
  predicate Valid(st: State)
  {
    AllInRange(st.smoothed)
  }

  /** True unless title, artist and album are all empty. */
  predicate MetadataReceived(st: State)
    ensures MetadataReceived(st) <==> |st.title| + |st.artist| + |st.album| > 0
  {
    !(st.title == "" && st.artist == "" && st.album == "")
  }

  /** The state at process start: zero-initialised globals, so the cached
      status is the enumeration's zero value, STOPPED, and no metadata. */
  function Init(): (st: State)
    ensures Valid(st)
    ensures st.status == Stopped && Suppressed(st.status)
    ensures |st.smoothed| == NUM_BARS && forall i :: 0 <= i < |st.smoothed| ==> st.smoothed[i] == 0.0
    ensures !MetadataReceived(st)
    ensures !st.btConnected && !st.screenCleared
  {
    State(Stopped, "", "", "", false, false, seq(NUM_BARS, i => 0.0))
  }

  /** The metadata callback: id 0x01, 0x02 and 0x04 replace the title, the
      artist and the album respectively; any other id changes nothing. */
  function OnMetadata(st: State, id: Byte, text: string): (r: State)
    ensures r.title == (if id == TITLE_ID then text else st.title)
    ensures r.artist == (if id == ARTIST_ID then text else st.artist)
    ensures r.album == (if id == ALBUM_ID then text else st.album)
    ensures r.status == st.status && r.smoothed == st.smoothed
    ensures r.btConnected == st.btConnected && r.screenCleared == st.screenCleared
  {
    if id == TITLE_ID then st.(title := text)
    else if id == ARTIST_ID then st.(artist := text)
    else if id == ALBUM_ID then st.(album := text)
    else st
  }

  /** A non-empty title, artist or album makes metadata present; metadata
      once present is lost only through an empty string replacing a field. */
  lemma MetadataPresence(st: State, id: Byte, text: string)
    ensures text != "" && id in {TITLE_ID, ARTIST_ID, ALBUM_ID} ==> MetadataReceived(OnMetadata(st, id, text))
    ensures MetadataReceived(st) && !MetadataReceived(OnMetadata(st, id, text)) ==> text == ""
    ensures id !in {TITLE_ID, ARTIST_ID, ALBUM_ID} ==> (MetadataReceived(OnMetadata(st, id, text)) <==> MetadataReceived(st))
  {
  }

  /** The playback-status callback caches the reported status and nothing else. */
  function OnPlayStatus(st: State, p: PlaybackStatus): (r: State)
    ensures r.status == p
    ensures r.(status := st.status) == st
  {
    st.(status := p)
  }

  /** The connection callback: a CONNECTED state event sets the connected flag
      and re-arms the screen clear; any other state event clears the connected
      flag; events other than state changes change nothing. */
  function OnConnection(st: State, ev: A2dpEvent): (r: State)
    ensures ev == ConnectionStateChanged(Connected) ==> r.btConnected && !r.screenCleared
    ensures ev.ConnectionStateChanged? && ev.state != Connected ==> !r.btConnected && r.screenCleared == st.screenCleared
    ensures !ev.ConnectionStateChanged? ==> r == st
    ensures r.(btConnected := st.btConnected, screenCleared := st.screenCleared) == st
  {
    match ev
    case ConnectionStateChanged(state) =>
      if state == Connected then st.(btConnected := true, screenCleared := false)
      else st.(btConnected := false)
    case OtherA2dpEvent => st
  }

  /** A callback invocation from the sink. */
  datatype Event =
    | Metadata(id: Byte, text: string)
    | PlayStatus(status: PlaybackStatus)
    | A2dp(event: A2dpEvent)

  /** Applies one callback. No callback touches the smoothing array, and only
      a new connection resets the screen-cleared flag. */
  function Apply(st: State, e: Event): (r: State)
    ensures r.smoothed == st.smoothed
    ensures Valid(st) ==> Valid(r)
    ensures st.screenCleared && !r.screenCleared ==> e == A2dp(ConnectionStateChanged(Connected))
  {
    match e
    case Metadata(id, text) => OnMetadata(st, id, text)
    case PlayStatus(p) => OnPlayStatus(st, p)
    case A2dp(ev) => OnConnection(st, ev)
  }

  /** What the core reads from outside in one pass of the loop: the magnitude
      buffer the transform left behind, the sink's connected query and volume. */
  datatype FrameInput = FrameInput(spectrum: seq<real>, linkUp: bool, volume: int)

  /** What one pass of the loop does to the screen: either the interface is
      shown with these bars, or the display is dark and possibly cleared. */
  datatype Output = Shown(bars: seq<Rect>) | Dark(clearScreen: bool)

  datatype StepResult = StepResult(state: State, output: Output)

  /** Whether the loop shows the interface this pass. */
  predicate ShowsInterface(st: State, input: FrameInput)
  {
    input.linkUp && MetadataReceived(st)
  }

  /** One pass of the main loop after the transform. When connected with
      metadata it re-arms the clear and runs the visualizer (which draws
      nothing while paused or stopped); otherwise it leaves the smoothing
      array alone and clears the screen only if it was not cleared already. */
  function LoopStep(st: State, input: FrameInput, m: Maths): (r: StepResult)
    requires |st.smoothed| == NUM_BARS
    requires |input.spectrum| == SAMPLES
    ensures |r.state.smoothed| == NUM_BARS
    ensures Valid(st) ==> Valid(r.state)
    ensures r.state.(smoothed := st.smoothed, screenCleared := st.screenCleared) == st
    ensures ShowsInterface(st, input) ==>
      !r.state.screenCleared && r.output.Shown? &&
      Frame(r.state.smoothed, r.output.bars) == Visualize(st.status, st.smoothed, input.spectrum, input.volume, m)
    ensures ShowsInterface(st, input) && Suppressed(st.status) ==> r.output == Shown([]) && r.state.smoothed == st.smoothed
    ensures !ShowsInterface(st, input) ==>
      r.state.screenCleared && r.state.smoothed == st.smoothed && r.output == Dark(!st.screenCleared)
  {
    if ShowsInterface(st, input) then
      var f := Visualize(st.status, st.smoothed, input.spectrum, input.volume, m);
      StepResult(st.(screenCleared := false, smoothed := f.smoothed), Shown(f.bars))
    else
      StepResult(st.(screenCleared := true), Dark(!st.screenCleared))
  }

  /** Something that happens to the device: a callback or a loop pass. */
  datatype Step = Callback(e: Event) | Tick(input: FrameInput)

  /** Every loop pass in the trace comes with a full magnitude buffer. */
  predicate WellFormed(steps: seq<Step>)
  {
    forall k :: 0 <= k < |steps| && steps[k].Tick? ==> |steps[k].input.spectrum| == SAMPLES
  }

  datatype RunResult = RunResult(state: State, outputs: seq<Output>)

  /** Runs a trace from a state, collecting one output per loop pass. */
  function Run(st: State, steps: seq<Step>, m: Maths): (r: RunResult)
    requires |st.smoothed| == NUM_BARS
    requires WellFormed(steps)
    ensures |r.state.smoothed| == NUM_BARS
    decreases |steps|
  {
    if steps == [] then RunResult(st, [])
    else
      match steps[0]
      case Callback(e) => Run(Apply(st, e), steps[1..], m)
      case Tick(input) =>
        var s := LoopStep(st, input, m);
        var rest := Run(s.state, steps[1..], m);
        RunResult(rest.state, [s.output] + rest.outputs)
  }

  /** The cross-frame invariant: whatever the callbacks and spectra, every
      smoothed band stays within [0, MAX_BAR_HEIGHT] and every bar drawn lies
      on the screen. */
  lemma {:induction false} RunKeepsInvariant(st: State, steps: seq<Step>, m: Maths)
    requires Valid(st)
    requires WellFormed(steps)
    ensures Valid(Run(st, steps, m).state)
    ensures forall o :: o in Run(st, steps, m).outputs && o.Shown? ==> forall b :: b in o.bars ==> OnScreen(b)
    decreases |steps|
  {
    if steps != [] {
      match steps[0]
      case Callback(e) =>
        RunKeepsInvariant(Apply(st, e), steps[1..], m);
      case Tick(input) =>
        var s := LoopStep(st, input, m);
        FrameBarsOnScreen(st.status, st.smoothed, input.spectrum, input.volume, m);
        RunKeepsInvariant(s.state, steps[1..], m);
    }
  }

  /** From power-on, every smoothed band stays in range forever. */
  lemma SmoothedAlwaysInRange(steps: seq<Step>, m: Maths)
    requires WellFormed(steps)
    ensures AllInRange(Run(Init(), steps, m).state.smoothed)
  {
    RunKeepsInvariant(Init(), steps, m);
  }

  /** The number of loop passes that cleared the screen. */
  function Clears(outputs: seq<Output>): nat
  {
    if outputs == [] then 0
    else (if outputs[0] == Dark(true) then 1 else 0) + Clears(outputs[1..])
  }

  /** No callback in the trace reports a new connection. */
  predicate NoNewConnection(steps: seq<Step>)
  {
    forall k :: 0 <= k < |steps| ==> steps[k] != Callback(A2dp(ConnectionStateChanged(Connected)))
  }

  /** Within an idle stretch (every loop pass dark, no new connection) the
      screen is cleared at most once: exactly once if the stretch has a loop
      pass and the screen was not already cleared, otherwise never. */
  lemma {:induction false} ClearAtMostOncePerIdleStretch(st: State, steps: seq<Step>, m: Maths)
    requires |st.smoothed| == NUM_BARS
    requires WellFormed(steps)
    requires NoNewConnection(steps)
    requires forall o :: o in Run(st, steps, m).outputs ==> o.Dark?
    ensures Clears(Run(st, steps, m).outputs) == if !st.screenCleared && Run(st, steps, m).outputs != [] then 1 else 0
    ensures st.screenCleared || Run(st, steps, m).outputs != [] ==> Run(st, steps, m).state.screenCleared
    decreases |steps|
  {
    if steps != [] {
      assert NoNewConnection(steps[1..]) by {
        forall k | 0 <= k < |steps[1..]| ensures steps[1..][k] != Callback(A2dp(ConnectionStateChanged(Connected))) {
          assert steps[1..][k] == steps[k + 1];
        }
      }
      match steps[0]
      case Callback(e) =>
        ClearAtMostOncePerIdleStretch(Apply(st, e), steps[1..], m);
      case Tick(input) =>
        var s := LoopStep(st, input, m);
        var rest := Run(s.state, steps[1..], m);
        assert Run(st, steps, m).outputs == [s.output] + rest.outputs;
        assert s.output.Dark?;
        ClearAtMostOncePerIdleStretch(s.state, steps[1..], m);
        assert ([s.output] + rest.outputs)[1..] == rest.outputs;
    }
  }
}

=== FILE: render.dfy ===
/** Conversion of a smoothed band value into one coloured bar (main.cpp:449-456). */
module Render {
  import opened Config

  /** C's float-to-int conversion `(int)x`: truncation toward zero. */
  function TruncToInt(x: real): (n: int)
    ensures 0.0 <= x ==> 0 <= n && n as real <= x < n as real + 1.0
    ensures x < 0.0 ==> n <= 0 && n as real - 1.0 < x <= n as real
  {
    if x >= 0.0 then x.Floor else -((-x).Floor)
  }

  /** Euclidean division of naturals leaves a remainder in [0, d). */
  lemma NatDivision(n: nat, d: nat)
    requires 0 < d
    ensures 0 <= n - (n / d) * d < d
  {
  }

  /** C's integer division: the quotient is truncated toward zero, so the
      remainder a - q*b is smaller than |b| and takes the sign of the dividend. */
  function CDiv(a: int, b: int): (q: int)
    requires b != 0
    ensures 0 <= a && 0 < b ==> 0 <= a - q * b < b
    ensures 0 <= a && b < 0 ==> 0 <= a - q * b < -b
    ensures a < 0 && 0 < b ==> -b < a - q * b <= 0
    ensures a < 0 && b < 0 ==> b < a - q * b <= 0
  {
    if 0 <= a && 0 < b then
      NatDivision(a, b);
      a / b
    else if 0 <= a then
      NatDivision(a, -b);
      var q0 := a / -b;
      assert a - (-q0) * b == a - q0 * (-b);
      -q0
    else if 0 < b then
      NatDivision(-a, b);
      var q0 := -a / b;
      assert a - (-q0) * b == -((-a) - q0 * b);
      -q0
    else
      NatDivision(-a, -b);
      var q0 := -a / -b;
      assert a - q0 * b == -((-a) - q0 * (-b));
      q0
  }

  /** Dividing an exact multiple of b by b gives the factor back. */
  lemma CDivExact(k: int, b: int)
    requires b != 0
    ensures CDiv(k * b, b) == k
  {
    var q := CDiv(k * b, b);
    CDivRemainder(k * b, b);
    Distribute(k, q, b);
    NonZeroMultiple(k - q, b);
  }

  /** Whatever the signs, C division leaves a remainder smaller than |b|. */
  lemma CDivRemainder(a: int, b: int)
    requires b != 0
    ensures Abs(a - CDiv(a, b) * b) < Abs(b)
  {
  }

  /** Multiplication distributes over subtraction. */
  lemma Distribute(k: int, q: int, b: int)
    ensures k * b - q * b == (k - q) * b
  {
  }

  /** The absolute value of an integer. */
  function Abs(n: int): nat
  {
    if n < 0 then -n else n
  }

  /** A non-zero multiple of b is at least as far from zero as b. */
  lemma NonZeroMultiple(d: int, b: int)
    ensures d != 0 ==> Abs(b) <= Abs(d * b)
  {
    if d != 0 {
      assert Abs(d * b) == Abs(d) * Abs(b);
      assert (Abs(d) - 1) * Abs(b) >= 0;
    }
  }

  /** Arduino `map(x, inMin, inMax, outMin, outMax)` on `long` operands: the
      ends of the input range go to the ends of the output range. */
  function ArduinoMap(x: int, inMin: int, inMax: int, outMin: int, outMax: int): (r: int)
    requires inMin != inMax
    ensures x == inMin ==> r == outMin
    ensures x == inMax ==> r == outMax
  {
    if x == inMin then
      CDivExact(0, inMax - inMin);
      CDiv(0 * (inMax - inMin), inMax - inMin) + outMin
    else if x == inMax then
      CDivExact(outMax - outMin, inMax - inMin);
      assert (x - inMin) * (outMax - outMin) == (outMax - outMin) * (inMax - inMin);
      CDiv((x - inMin) * (outMax - outMin), inMax - inMin) + outMin
    else
      CDiv((x - inMin) * (outMax - outMin), inMax - inMin) + outMin
  }

  /** The green channel of a bar of height d: rises from 0 to 200. */
  function GreenLevel(d: int): int
  {
    ArduinoMap(d, 0, MAX_BAR_HEIGHT, 0, 200)
  }

  /** The blue channel of a bar of height d: falls from 180 to 0. */
  function BlueLevel(d: int): int
  {
    ArduinoMap(d, 0, MAX_BAR_HEIGHT, 180, 0)
  }

  /** For heights in [0, MAX_BAR_HEIGHT] the channels are floor(5d/2) and
      180 - floor(9d/4) (the descending map truncates its negative quotient
      toward zero), so both fit in a byte. */
  lemma ChannelLevels(d: int)
    requires 0 <= d <= MAX_BAR_HEIGHT
    ensures GreenLevel(d) == (5 * d) / 2 && 0 <= GreenLevel(d) <= 200
    ensures BlueLevel(d) == 180 - (9 * d) / 4 && 0 <= BlueLevel(d) <= 180
  {
  }

  /** Taller bars are never less green and never more blue. */
  lemma ChannelsMonotone(d1: int, d2: int)
    requires 0 <= d1 <= d2 <= MAX_BAR_HEIGHT
    ensures GreenLevel(d1) <= GreenLevel(d2)
    ensures BlueLevel(d2) <= BlueLevel(d1)
  {
  }

  /** An RGB colour as passed to `color565`, one `uint8_t` per channel. */
  datatype Rgb = Rgb(red: Byte, green: Byte, blue: Byte)

  /** A filled rectangle: top-left corner, width, height, colour. */
  datatype Rect = Rect(x: int, y: int, w: int, h: int, color: Rgb)

  /** The rectangle drawn for band i when its smoothed value is s: one pixel
      wide at column 2i, standing on the bottom edge of the screen, as tall as
      the truncated value. */
  function BarFor(i: int, s: real): (r: Rect)
    ensures r.x == 2 * i && r.w == BAR_WIDTH
    ensures r.y + r.h == SCREEN_HEIGHT
  {
    var displayMag := TruncToInt(s);
    var color := Rgb(255, ToByte(GreenLevel(displayMag)), ToByte(BlueLevel(displayMag)));
    Rect(i * BAR_WIDTH * 2, SCREEN_HEIGHT - displayMag, BAR_WIDTH, displayMag, color)
  }

  /** A rectangle within the 128x160 screen whose bottom edge is the screen's
      bottom edge and whose height is a possible bar height. */
  predicate OnScreen(r: Rect)
  {
    0 <= r.x && r.x + r.w <= SCREEN_WIDTH &&
    0 <= r.h <= MAX_BAR_HEIGHT && 0 <= r.y && r.y + r.h == SCREEN_HEIGHT
  }

  /** A bar for a band index and an in-range smoothed value lies on the
      128x160 screen, is as tall as the value's integer part, and its colour
      channels are the exact (unwrapped) map values. */
  lemma BarOnScreen(i: int, s: real)
    requires 0 <= i < NUM_BARS
    requires 0.0 <= s <= MAX_BAR_HEIGHT as real
    ensures 0 <= BarFor(i, s).x && BarFor(i, s).x + BarFor(i, s).w <= SCREEN_WIDTH
    ensures SCREEN_HEIGHT - MAX_BAR_HEIGHT <= BarFor(i, s).y <= SCREEN_HEIGHT
    ensures 0 <= BarFor(i, s).h <= MAX_BAR_HEIGHT
    ensures BarFor(i, s).h as real <= s < BarFor(i, s).h as real + 1.0
    ensures OnScreen(BarFor(i, s))
    ensures BarFor(i, s).color == Rgb(255, (5 * BarFor(i, s).h) / 2, 180 - (9 * BarFor(i, s).h) / 4)
  {
  }
}

=== FILE: smoothing.dfy ===
/** The per-band exponential filter kept across frames (main.cpp:18, 56, 448). */
module Smoothing {
  import opened Config

  /** A band value a bar can show: within [0, MAX_BAR_HEIGHT]. */
  predicate InRange(x: real)
  {
    0.0 <= x <= MAX_BAR_HEIGHT as real
  }

  /** A full smoothing array whose every band is in range. */
  predicate AllInRange(s: seq<real>)
  {
    |s| == NUM_BARS && forall i :: 0 <= i < |s| ==> InRange(s[i])
  }

  /** One filter step: the new value is a convex combination of the previous
      smoothed value and this frame's scaled value, so it lies between them. */
  function Smooth(prev: real, scaled: real): (r: real)
    ensures prev <= scaled ==> prev <= r <= scaled
    ensures scaled <= prev ==> scaled <= r <= prev
    ensures InRange(prev) && InRange(scaled) ==> InRange(r)
  {
    SMOOTHING_FACTOR * prev + (1.0 - SMOOTHING_FACTOR) * scaled
  }

  /** prev' after k successive frames in which the band's scaled value is 0. */
  function Decay(s: real, k: nat): real
  {
    if k == 0 then s else Smooth(Decay(s, k - 1), 0.0)
  }

  /** b raised to the k-th power. */
  function Power(b: real, k: nat): real
  {
    if k == 0 then 1.0 else b * Power(b, k - 1)
  }

  /** Under zero input the filter is a pure geometric decay by SMOOTHING_FACTOR per frame. */
  lemma {:induction false} DecayClosedForm(s: real, k: nat)
    ensures Decay(s, k) == Power(SMOOTHING_FACTOR, k) * s
  {
    if k > 0 {
      DecayClosedForm(s, k - 1);
    }
  }

  /** Under zero input a non-negative band value never rises and never goes negative. */
  lemma {:induction false} DecayNonIncreasing(s: real, k: nat)
    requires 0.0 <= s
    ensures 0.0 <= Decay(s, k + 1) <= Decay(s, k) <= s
  {
    if k > 0 {
      DecayNonIncreasing(s, k - 1);
    }
  }
}

=== FILE: visualizer.dfy ===
/** One frame of the bar visualizer: playback gate, band pipeline, smoothing
    and bar emission (main.cpp:413-458). */
module Visualizer {
  import opened Config
  import opened Bands
  import opened Smoothing
  import opened Render
  import opened Wrappers

  /** The AVRCP playback states the sink reports. */
  datatype PlaybackStatus = Stopped | Playing | Paused | ForwardSeek | ReverseSeek | Error

  /** Playback states in which the visualizer returns without drawing. */
  predicate Suppressed(s: PlaybackStatus)
    ensures Suppressed(s) <==> !(s.Playing? || s.ForwardSeek? || s.ReverseSeek? || s.Error?)
  {
    s == Paused || s == Stopped
  }

  /** The transcendental factors of the band pipeline, abstracted as positive
      functions: volumeCurve(v) stands for pow(25, -v/115) and boostCurve(i)
      for pow(1 + 500*i/63, 3.5). */
  datatype Maths = Maths(volumeCurve: int -> PosReal, boostCurve: int -> PosReal)

  /** Band i's scaled height for this frame, before smoothing. */
  function BandHeight(spectrum: seq<real>, i: int, volume: int, m: Maths): (s: real)
    requires |spectrum| == SAMPLES
    requires 0 <= i < NUM_BARS
    ensures InRange(s)
    ensures s == 0.0 <==> BandAverage(spectrum, i, m.volumeCurve(volume)) < NoiseThreshold(i)
  {
    ScaledBand(BandAverage(spectrum, i, m.volumeCurve(volume)), m.boostCurve(i), i)
  }

  /** The persistent smoothing array after a frame, and the bars drawn in it. */
  datatype Frame = Frame(smoothed: seq<real>, bars: seq<Rect>)

  /** One call of the visualizer. While playback is paused or stopped it
      changes nothing and draws nothing. Otherwise every band's smoothed value
      moves toward this frame's height, stays in range if it was, never rises
      for a band under its noise floor, and one on-screen bar per band is drawn
      from the new smoothed value. */
  function Visualize(status: PlaybackStatus, smoothed: seq<real>, spectrum: seq<real>, volume: int, m: Maths): (r: Frame)
    requires |smoothed| == NUM_BARS
    requires |spectrum| == SAMPLES
    ensures Suppressed(status) ==> r.smoothed == smoothed && r.bars == []
    ensures !Suppressed(status) ==> |r.smoothed| == NUM_BARS && |r.bars| == NUM_BARS
    ensures AllInRange(smoothed) ==> AllInRange(r.smoothed)
    ensures !Suppressed(status) ==> forall i :: 0 <= i < NUM_BARS ==>
      r.bars[i] == BarFor(i, r.smoothed[i]) &&
      (smoothed[i] <= BandHeight(spectrum, i, volume, m) ==> smoothed[i] <= r.smoothed[i] <= BandHeight(spectrum, i, volume, m)) &&
      (BandHeight(spectrum, i, volume, m) <= smoothed[i] ==> BandHeight(spectrum, i, volume, m) <= r.smoothed[i] <= smoothed[i])
    ensures !Suppressed(status) ==> forall i :: 0 <= i < NUM_BARS ==>
      (0.0 <= smoothed[i] && BandAverage(spectrum, i, m.volumeCurve(volume)) < NoiseThreshold(i) ==> 0.0 <= r.smoothed[i] <= smoothed[i])
  {
    if Suppressed(status) then Frame(smoothed, [])
    else
      var next := seq(NUM_BARS, i requires 0 <= i < NUM_BARS => Smooth(smoothed[i], BandHeight(spectrum, i, volume, m)));
      Frame(next, seq(NUM_BARS, i requires 0 <= i < NUM_BARS => BarFor(i, next[i])))
  }

  /** The body of the band loop for band i, with the read loop stopped at the
      end of the magnitude buffer (the correction of band 63's read): sum the
      band's bins, average, apply the volume gain, the noise gate, the boost
      and the clamp, and fold the result into the band's previous smoothed
      value. */
  method UpdateBand(prev: real, spectrum: seq<real>, i: int, volume: int, m: Maths) returns (s: real)
    requires |spectrum| == SAMPLES
    requires 0 <= i < NUM_BARS
    ensures s == Smooth(prev, BandHeight(spectrum, i, volume, m))
  {
    var lo, hi := BinEdges()[i], BandEnd(i);
    var sum := 0.0;
    var j := lo;
    while j < hi
      invariant lo <= j <= hi
      invariant SumBins(spectrum, lo, j) == Some(sum)
    {
      sum := sum + spectrum[j];
      j := j + 1;
    }
    var avg := sum / ((BinEdges()[i + 1] - BinEdges()[i]) as real) * 10.0 * m.volumeCurve(volume);
    var noiseThreshold := BASE_THRESHOLD / (1.0 + THRESHOLD_DECAY * i as real);
    if avg < noiseThreshold {
      avg := 0.0;
    }
    var scaled := Constrain(50.0 * m.boostCurve(i) * avg, 0.0, MAX_BAR_HEIGHT as real);
    s := SMOOTHING_FACTOR * prev + (1.0 - SMOOTHING_FACTOR) * scaled;
  }

  /** The visualizer's imperative form: the playback gate, then one pass over
      the bands updating the smoothing array in place and appending one
      rectangle per band, each band's read loop bounded by the buffer. It
      computes exactly the frame `Visualize` describes. */
  method DisplayVisualizer(status: PlaybackStatus, smoothed: seq<real>, spectrum: seq<real>, volume: int, m: Maths)
    returns (next: seq<real>, bars: seq<Rect>)
    requires |smoothed| == NUM_BARS
    requires |spectrum| == SAMPLES
    ensures Frame(next, bars) == Visualize(status, smoothed, spectrum, volume, m)
  {
    if Suppressed(status) {
      return smoothed, [];
    }
    next, bars := smoothed, [];
    var i := 0;
    while i < NUM_BARS
      invariant 0 <= i <= NUM_BARS
      invariant |next| == NUM_BARS && |bars| == i
      invariant forall k :: i <= k < NUM_BARS ==> next[k] == smoothed[k]
      invariant forall k :: 0 <= k < i ==> next[k] == Smooth(smoothed[k], BandHeight(spectrum, k, volume, m))
      invariant forall k :: 0 <= k < i ==> bars[k] == BarFor(k, next[k])
    {
      var s := UpdateBand(next[i], spectrum, i, volume, m);
      next := next[i := s];
      var displayMag := TruncToInt(s);
      var color := Rgb(255, ToByte(GreenLevel(displayMag)), ToByte(BlueLevel(displayMag)));
      bars := bars + [Rect(i * BAR_WIDTH * 2, SCREEN_HEIGHT - displayMag, BAR_WIDTH, displayMag, color)];
      i := i + 1;
    }
  }

  /** Every bar of a frame drawn from an in-range smoothing array lies on the screen. */
  lemma FrameBarsOnScreen(status: PlaybackStatus, smoothed: seq<real>, spectrum: seq<real>, volume: int, m: Maths)
    requires AllInRange(smoothed)
    requires |spectrum| == SAMPLES
    ensures forall b :: b in Visualize(status, smoothed, spectrum, volume, m).bars ==> OnScreen(b)
  {
  }

  /** Band i's scaled height as the source computes it, band 63 reading
      `stray` from one past the end of the buffer. */
  function AsWrittenBandHeight(spectrum: seq<real>, stray: real, i: int, volume: int, m: Maths): (s: real)
    requires |spectrum| == SAMPLES
    requires 0 <= i < NUM_BARS
    ensures InRange(s)
    ensures i < NUM_BARS - 1 ==> s == BandHeight(spectrum, i, volume, m)
    ensures s == 0.0 <==> AsWrittenBandAverage(spectrum, stray, i, m.volumeCurve(volume)) < NoiseThreshold(i)
  {
    ScaledBand(AsWrittenBandAverage(spectrum, stray, i, m.volumeCurve(volume)), m.boostCurve(i), i)
  }

  /** One call of the visualizer exactly as written, for whatever value
      `stray` the out-of-bounds read of band 63 returns. It matches the
      corrected frame on bands 0-62, and whatever `stray` is, it keeps an
      in-range smoothing array in range and draws only on-screen bars. */
  function VisualizeAsWritten(status: PlaybackStatus, smoothed: seq<real>, spectrum: seq<real>, stray: real, volume: int, m: Maths): (r: Frame)
    requires |smoothed| == NUM_BARS
    requires |spectrum| == SAMPLES
    ensures Suppressed(status) ==> r.smoothed == smoothed && r.bars == []
    ensures !Suppressed(status) ==> |r.smoothed| == NUM_BARS && |r.bars| == NUM_BARS
    ensures !Suppressed(status) ==> forall i :: 0 <= i < NUM_BARS - 1 ==>
      r.smoothed[i] == Visualize(status, smoothed, spectrum, volume, m).smoothed[i] &&
      r.bars[i] == Visualize(status, smoothed, spectrum, volume, m).bars[i]
    ensures AllInRange(smoothed) ==> AllInRange(r.smoothed)
    ensures AllInRange(smoothed) ==> forall b :: b in r.bars ==> OnScreen(b)
  {
    if Suppressed(status) then Frame(smoothed, [])
    else
      var next := seq(NUM_BARS, i requires 0 <= i < NUM_BARS => Smooth(smoothed[i], AsWrittenBandHeight(spectrum, stray, i, volume, m)));
      var bars := seq(NUM_BARS, i requires 0 <= i < NUM_BARS => BarFor(i, next[i]));
      AsWrittenAgrees(status, smoothed, spectrum, stray, volume, m, next, bars);
      AsWrittenInRange(smoothed, next, bars);
      Frame(next, bars)
  }

  /** Bands 0-62 of the as-written frame are those of the corrected frame. */
  lemma AsWrittenAgrees(status: PlaybackStatus, smoothed: seq<real>, spectrum: seq<real>, stray: real, volume: int, m: Maths,
                        next: seq<real>, bars: seq<Rect>)
    requires |smoothed| == NUM_BARS && |spectrum| == SAMPLES && !Suppressed(status)
    requires |next| == NUM_BARS && |bars| == NUM_BARS
    requires forall i :: 0 <= i < NUM_BARS ==> next[i] == Smooth(smoothed[i], AsWrittenBandHeight(spectrum, stray, i, volume, m))
    requires forall i :: 0 <= i < NUM_BARS ==> bars[i] == BarFor(i, next[i])
    ensures forall i :: 0 <= i < NUM_BARS - 1 ==>
      next[i] == Visualize(status, smoothed, spectrum, volume, m).smoothed[i] &&
      bars[i] == Visualize(status, smoothed, spectrum, volume, m).bars[i]
  {
    var v := Visualize(status, smoothed, spectrum, volume, m);
    forall i | 0 <= i < NUM_BARS - 1
      ensures next[i] == v.smoothed[i] && bars[i] == v.bars[i]
    {
      assert AsWrittenBandHeight(spectrum, stray, i, volume, m) == BandHeight(spectrum, i, volume, m);
    }
  }

  /** A frame folded from in-range heights into an in-range array stays in
      range, and its bars lie on the screen. */
  lemma AsWrittenInRange(smoothed: seq<real>, next: seq<real>, bars: seq<Rect>)
    requires |next| == NUM_BARS && |bars| == NUM_BARS
    requires forall i :: 0 <= i < NUM_BARS ==> bars[i] == BarFor(i, next[i])
    requires AllInRange(smoothed) ==> AllInRange(next)
    ensures AllInRange(smoothed) ==> forall b :: b in bars ==> OnScreen(b)
  {
    if AllInRange(smoothed) {
      forall b | b in bars
        ensures OnScreen(b)
      {
        var i :| 0 <= i < |bars| && bars[i] == b;
        BarOnScreen(i, next[i]);
      }
    }
  }
}
